=== FILE: README.md ===
# go-dpo client core, modelled in Dafny

This project models the core of `go-dpo`, a Go client for the DPO payment
gateway's XML-over-HTTP API. It covers:

- the result-code vocabulary and its descriptions (`card.go`);
- the create-token request builder and the create-token response (`token.go`);
- the client operations (`client.go`): `NewClient`, `MakePaymentURL`,
  `CreateToken`, `ChargeCreditCard`, and the three polling operations
  `VerifyToken`, `CancelToken` and `RefundToken` with their bounded retry loop.

The transport is abstracted away. Each HTTP round trip is an `Exchange`:

- a transport failure;
- a failure while reading the body;
- or a status, a raw body and what unmarshalling the body gave.

A single-shot call takes one exchange. A polling call takes a script
`transport: nat -> Exchange`, where `transport(i)` is the answer to the i-th
request. Each call returns the answer as Go's `(response, error)` pair, either
half of which may be nil. A polling call also returns the number of requests
it issued, so the attempt bound and early exit can be stated exactly.

Modules, one per concern:

- `Optional`: nil-able values.
- `Codes` (`card.go`): the nine result codes, `Description` and its inverse,
  and the charge response.
- `Tokens` (`token.go`): the request builder and the create-token response.
- `Errors`: the client's error kinds and their `fmt.Errorf` texts.
- `Exchanges`: one round trip, and how verify, cancel and refund classify it.
- `Retry`: the polling loop.
- `Client`: the public operations.

Three behaviours of the code worth knowing:

- Verify returns the first HTTP 200 response whatever its result code. It does
  not treat non-"000" codes as failures.
- The polling loops poll again on every status that is neither 200 nor in
  [400, 500). A 5xx or a 201 is retried, not surfaced.
- Success needs status 200 exactly, not any 2xx.

## Model

| member | source | states |
|---|---|---|
| Codes.Description | card.go:22-52 | total: the result is "Unknown" exactly when the code is not one of the nine named codes |
| Codes.KnownCodesDistinct | card.go:7-17 | the nine code constants are pairwise distinct |
| Codes.DescriptionRoundTrip | card.go:22-52 | reading the code back from the description of a named code gives that code |
| Codes.DescriptionInjective | card.go:22-52 | two named codes with the same description are the same code, so the nine descriptions are distinct |
| Codes.DescriptionOfChargedAndDenied | card.go:25-49 | "000" is described as "Transaction charged" and "999" as "Transaction Declined - Explanation" |
| Codes.ChargeIsErrorByDescription | card.go:116-118 | a charge response is an error exactly when its code is not the one described as charged; already-paid ("200") is an error |
| Tokens.NewCreateTokenRequest | token.go:39-54 | operation "createToken", time limit "5", credential, currency and amount from the arguments, all other fields empty, an empty non-nil service list; the request is well formed |
| Tokens.AddService | token.go:56-69 | the list becomes non-nil and grows by one; the old services are a prefix; the new last element has the given type, description and date; nothing else changes |
| Tokens.AddServiceToEmpty | token.go:62-66 | on a nil or empty list the result is exactly the one new service, and well-formedness is kept |
| Tokens.AddServicesAppends | token.go:56-69 | any sequence of calls appends the services in call order after the existing ones and changes no other field |
| Tokens.ThreeServicesInOrder | token.go:56-69 | three calls on a zero-value request leave exactly those three services, in call order |
| Tokens.SetBackURL | token.go:71-73 | sets the back URL; every other field is unchanged |
| Tokens.SetRedirectURL | token.go:75-77 | sets the redirect URL; every other field is unchanged |
| Tokens.SettersCommute | token.go:56-77 | the two setters commute with each other and with AddService; for each setter the last write wins; well-formedness is kept |
| Tokens.CreateTokenIsErrorExactlyUnlessCharged | token.go:105-107 | a create-token response is an error iff its result is not "000"; every other named code is an error |
| Errors.Digits | client.go:154 | the decimal text of a natural number is non-empty, all digits, without a leading zero, and reads back as that number |
| Errors.Decimal | client.go:227 | Go's %d: a leading '-' exactly for negatives, followed by digits without a leading zero that read back as the magnitude |
| Errors.Message | client.go:98-237 | each error kind gets the source's own text: the three fixed token messages verbatim, a transport error's reason passed through unchanged, and the read, unmarshal, status, charge, gateway and exhaustion errors each opening with their fixed wording |
| Errors.MessageCarriesContext | client.go:137-227 | a read error's text carries the partial body and the reason, an unmarshal error's the reason, a status error's the %d of the status and the body, a charge error's the gateway explanation, and the exhaustion error's the %d of the attempt count |
| Errors.GatewayMessageCarriesExplanation | client.go:389 | a gateway ("dpo error") text carries the gateway's explanation |
| Errors.ExhaustedMessageReadsBack | client.go:227 | for every attempt count, the exhaustion text splits into exactly "failed to process request after ", the %d of the count and " attempts" |
| Errors.ReadFailedMessageReadsBack | client.go:137 | a read error's text splits into exactly "failed to read body: ", the partial body, " got: " and the reason, in that order |
| Errors.InvalidResponseCodeMessageReadsBack | client.go:154 | a status error's text splits into exactly "invalid response code:", the %d of the status, " body: " and the body, in that order |
| Errors.ExhaustedMessageOfDefaultBudget | client.go:227 | the exhausted error of a 5-attempt budget reads "failed to process request after 5 attempts" |
| Errors.InvalidResponseCodeMessage | client.go:391-393 | a 404 with body "x" reads "invalid response code:404 body: x" |
| Exchanges.TransientCodes | client.go:384-475 | the codes each polling operation retries on: none for verify, {999, 804, 950} for cancel, {801, 802, 803, 804, 950, 999} for refund; "000" is never among them and all are named codes |
| Exchanges.CancelTransientWithinRefund | client.go:384-475 | cancel's transient codes are a subset of refund's; refund also retries on 801, 802 and 803 |
| Exchanges.ClassifyReply | client.go:384-390 | the code switch on a parsed 200: it retries exactly on the operation's transient codes; it succeeds iff the operation is verify or the code is "000"; it otherwise returns the reply together with "dpo error" and its explanation |
| Exchanges.Classify | client.go:364-393 | one iteration retries exactly on a non-200, non-4xx status or a transient code; a parsed 200 is decided by the operation's code switch; transport, read, unmarshal and 4xx failures end the call with that error and no response; a response only comes from a parsed 200 |
| Exchanges.VerifyIgnoresResultCode | client.go:213-221 | verify ends on the first parsed 200 with that response and no error, whatever its result code |
| Retry.Loop | client.go:188-227 | over any per-attempt decisions: the loop never issues more requests than the budget; it reports exhaustion exactly when it used the whole budget without a final decision, every decision it passed over having been to poll again; otherwise its answer is the decision on the last request |
| Retry.Poll | client.go:353-396 | from the first attempt: at most the budget of requests; the "after N attempts" error only after the whole budget; otherwise the last exchange's classification decided the answer |
| Retry.LoopExhausts | client.go:438-482 | when every remaining decision is to poll again, the loop runs to the budget and returns the exhausted error |
| Retry.LoopStopsAtFirstFinal | client.go:438-482 | with poll-again decisions before k and a final one at k, the loop issues exactly k + 1 requests and returns decision k's answer |
| Retry.LoopOnlyRetriesTransient | client.go:355-394 | every decision before the last request issued was to poll again; the loop never passes over a final decision |
| Retry.PollExhausts | client.go:188-227 | all-transient attempts: exactly maxAttempts requests, never more, then "failed to process request after N attempts" |
| Retry.PollStopsAtFirstFinal | client.go:353-396 | the first final attempt ends the loop with its answer after exactly that many requests |
| Retry.PollOnlyRetriesTransient | client.go:440-480 | every attempt an operation made before its last one was classified as transient |
| Retry.FirstAttemptFatal | client.go:199-224 | a transport, read, unmarshal or 4xx failure on the first attempt ends the loop after one request with no response |
| Client.NewClient | client.go:76-86 | the credential and debug flag are copied; the polling budget is 5 |
| Client.LiveClientUsesLiveEndpoints | client.go:62-110 | a live client keeps the credential and the budget of 5, posts create-token requests to the live API URL and builds payment URLs on the live pay base |
| Client.MakePaymentURL | client.go:62-71 | "" for a nil token; otherwise a URL from which the transaction token can be read back after the debug-selected base and "?ID=" |
| Client.PaymentTokenOf | client.go:62-71 | a token read from a URL is exactly what follows the base and "?ID=" |
| Client.PaymentURLShape | client.go:62-71 | the URL starts with the test pay base and "?ID=" in debug mode and the live base otherwise; equal URLs mean equal transaction tokens |
| Client.CreateToken | client.go:96-155 | a nil request is refused before sending; a response is returned iff the status is 200, the body parses and the result is "000"; a parsed non-"000" result gives "failed to charge card" with the explanation; transport, read and unmarshal failures give their own errors; any other status gives "invalid response code" |
| Client.CreateTokenNilRequest | client.go:96-99 | a nil request sends nothing and its error text contains "token must not be nil" |
| Client.StripSlashes | client.go:245-246 | the result has no '/', is shorter than the input by exactly the number of '/' in it, and is the input when it has none |
| Client.StripSlashesAppend | client.go:246 | stripping distributes over concatenation, so it keeps every other character in order |
| Client.StripSlashesExample | client.go:245-246 | "12/25" is sent as "1225" |
| Client.ChargeRequest | client.go:240-248 | the charge request carries the client credential, the transaction token, the card data and the stripped expiry, which has no '/' |
| Client.ChargeCreditCard | client.go:231-320 | a nil token or an empty transaction token fails before any request is built; otherwise exactly ChargeRequest's request is sent; a response is returned iff the status is 200, the body parses and the result is "000"; a parsed non-"000" result gives "failed to charge card"; transport, read and unmarshal failures and any non-200 status give their own errors |
| Client.VerifyToken | client.go:158-228 | posts a verifyToken request with the client credential and transaction token; at most the budget of requests; a response comes back only from a parsed 200 and never with an error |
| Client.CancelToken | client.go:323-397 | posts a cancelToken request; at most the budget of requests; when the loop ends on a parsed 200, "000" returns the reply alone and a code outside {000, 999, 804, 950} returns the reply with "dpo error" and its explanation; conversely no error means "000", and a reply returned with an error has a terminal code |
| Client.RefundToken | client.go:400-483 | posts a refundToken request with approval 1 iff approval is required and a zero amount; at most the budget of requests; when the loop ends on a parsed 200, "000" returns the reply alone and a code outside {000, 801, 802, 803, 804, 950, 999} returns the reply with "dpo error"; conversely no error means "000", and a reply returned with an error has a terminal code |
| Client.CancelTerminalCode | client.go:384-390 | transient answers and then a parsed terminal code make cancel return that reply with "dpo error" after exactly that many requests |
| Client.RefundTerminalCode | client.go:469-475 | transient answers and then a parsed terminal code make refund return that reply with "dpo error" after exactly that many requests |
| Client.DefaultClientGivesUpAfterFive | client.go:76-86 | a NewClient client that sees only transient answers cancels with exactly five requests and then the "after 5 attempts" error |
| Client.CancelSucceedsOnAttempt | client.go:353-396 | n - 1 transient answers followed by "000" (n within the budget) make cancel succeed with exactly n requests |
| Client.RefundStopsOnClientError | client.go:477-479 | a 4xx on the first refund attempt ends the call after one request with "invalid response code" |
| Client.RefundIgnoresAmount | client.go:400-413 | the refund amount argument changes neither the request nor the result |

## Left out

- HTTP transport: request construction, the headers, the 30-second timeout and body reading. Each attempt is an abstract `Exchange`.
- A failure of `http.NewRequest` is left out. It depends on the endpoint URLs, whose values are not part of this model.
- XML marshalling and its failure path are left out. The requests hold only strings and, for refund, a `big.Float` amount and an `int8` approval flag, none of which `xml.Marshal` rejects. Unmarshalling is abstracted into the exchange's `decoded` field. The debug pretty-printer and the `fmt.Printf` logging are left out too.
- The endpoint constants (`testAPIURL`, `liveAPIURL`, `testPayURL`, `livePayURL`) are not part of this model. They are passed in as an `Endpoints` value.
- The retry loops reuse a `bytes.Reader` that the first attempt has drained, so later attempts send an empty body. This is an I/O artefact. The model assumes every attempt sends the same request.
- `defaultCompanyRefGenerator` and the `GenerateRef` field are left out. The generator uses crypto randomness and panics on failure.
- `NewCreateTokenRequest` takes the amount as already formatted text. `big.Float` formatting is not modelled, and neither is the panic on a nil amount.
- `AddService` takes the service date as already formatted text. `time.Time.Format` is not modelled.
- Client.VerifyToken: a nil token makes the Go code panic on `token.TransToken`. The model takes a non-nil token.
- Client.ChargeRequest: the fixed 3-D Secure block sent with every charge is not modelled. It is a constant with no behaviour. The operation name is taken from the exported `OpChargeTokenCreditCard` ("chargeTokenCreditCard"); the unexported `opChargeTokenCreditCard` that the charge actually uses is not part of this model, and its value is assumed to be the same.
- The request-type and response-type declarations for verify, cancel and refund are not part of this model. Their responses are modelled by one `Reply` with a result code and an explanation.
- The mobile-money request and response are declarations only, with no behaviour.
- There is no concurrency. Each call is sequential.

=== FILE: client.dfy ===
/** The client's public operations (client.go): configuration, the payment
    URL, the single-shot create-token and card-charge calls, and the polling
    verify, cancel and refund calls. */
module Client {
  import opened Optional
  import opened Errors
  import opened Exchanges
  import opened Retry
  import opened Tokens
  import Codes

  /** The client's configuration. `maxAttempts` is the polling budget. The
      reference generator and the HTTP client are not modelled. */
  datatype Client = Client(debug: bool, token: string, maxAttempts: int)

  const DefaultMaxAttempts: int := 5

  /** A client for the given credential; debug mode talks to the test
      endpoints. */
  function NewClient(companyToken: string, debug: bool): (c: Client)
    ensures c.token == companyToken && c.debug == debug
    ensures c.maxAttempts == 5
  {
    Client(debug, companyToken, DefaultMaxAttempts)
  }

  /** A client that talks to the live endpoints. */
  function NewLiveClient(companyToken: string): (c: Client)
  {
    NewClient(companyToken, false)
  }

  /** The four base URLs; their values live outside the modelled files. */
  datatype Endpoints = Endpoints(testApi: string, liveApi: string, testPay: string, livePay: string)

  /** The URL requests are posted to. */
  function ApiURL(c: Client, urls: Endpoints): (u: string)
  {
    if c.debug then urls.testApi else urls.liveApi
  }

  /** The payment page base URL the payer is redirected to. */
  function PayURL(c: Client, urls: Endpoints): string {
    if c.debug then urls.testPay else urls.livePay
  }

  const IdQuery: string := "?ID="

  /** The redirect URL for a created token; empty for a nil token. */
  function MakePaymentURL(c: Client, urls: Endpoints, token: Option<CreateTokenResponse>): (u: string)
    ensures token.None? ==> u == ""
    ensures token.Some? ==> PaymentTokenOf(u, PayURL(c, urls)) == Some(token.value.transToken)
  {
    match token
    case None => ""
    case Some(t) => PayURL(c, urls) + IdQuery + t.transToken
  }

  /** Reads the transaction token back out of a payment URL built on `base`. */
  function PaymentTokenOf(url: string, base: string): (t: Option<string>)
    ensures t.Some? ==> url == base + IdQuery + t.value
  {
    var prefix := base + IdQuery;
    if prefix <= url then Some(url[|prefix|..]) else None
  }

  /** The payment URL of a token names that token after the debug-selected
      base, so two tokens share a URL only when their transaction tokens are
      equal. */
  lemma PaymentURLShape(c: Client, urls: Endpoints, t: CreateTokenResponse, t': CreateTokenResponse)
    ensures c.debug ==> urls.testPay + "?ID=" <= MakePaymentURL(c, urls, Some(t))
    ensures !c.debug ==> urls.livePay + "?ID=" <= MakePaymentURL(c, urls, Some(t))
    ensures MakePaymentURL(c, urls, Some(t)) == MakePaymentURL(c, urls, Some(t'))
            ==> t.transToken == t'.transToken
  {
  }

  /** A live client posts to the live API and sends payers to the live
      payment page, with the default budget of five attempts. */
  lemma LiveClientUsesLiveEndpoints(companyToken: string, urls: Endpoints, t: CreateTokenResponse,
                                    request: CreateTokenRequest, exchange: Exchange<CreateTokenResponse>)
    ensures NewLiveClient(companyToken).token == companyToken
    ensures NewLiveClient(companyToken).maxAttempts == 5
    ensures urls.livePay + "?ID=" <= MakePaymentURL(NewLiveClient(companyToken), urls, Some(t))
    ensures CreateToken(NewLiveClient(companyToken), urls, Some(request), exchange).url == urls.liveApi
  {
  }

  /** A single-shot call: the URL and request sent, if any, and the answer. */
  datatype Call<Q, R> = Call(url: string, sent: Option<Q>, answer: Answer<R>)

  /** Creates a payment token: one request, success only on HTTP 200 with
      result "000". */
  function CreateToken(c: Client, urls: Endpoints, token: Option<CreateTokenRequest>,
                       exchange: Exchange<CreateTokenResponse>): (r: Call<CreateTokenRequest, CreateTokenResponse>)
    ensures token.None? ==> r.sent.None? && r.answer == Failure(TokenMustNotBeNil)
    ensures token.Some? ==> r.sent == token && r.url == ApiURL(c, urls)
    ensures r.answer.response.Some? <==>
              token.Some? && ParsedOk(exchange) && exchange.decoded.value.result == "000"
    ensures r.answer.response.Some? ==> r.answer.response.value == exchange.decoded.value && r.answer.error.None?
    ensures r.answer.response.None? ==> r.answer.error.Some?
    ensures token.Some? && ParsedOk(exchange) && exchange.decoded.value.IsError() ==>
              r.answer.error == Some(ChargeFailed(exchange.decoded.value.resultExplanation))
    ensures token.Some? && exchange.TransportFailure? ==> r.answer == Failure(TransportFailed(exchange.reason))
    ensures token.Some? && exchange.ReadFailure? ==> r.answer == Failure(ReadFailed(exchange.partial, exchange.reason))
    ensures token.Some? && exchange.Received? && exchange.status == 200 && exchange.decoded.Malformed? ==>
              r.answer == Failure(UnmarshalFailed(exchange.decoded.reason))
    ensures token.Some? && exchange.Received? && exchange.status != 200 ==>
              r.answer.error == Some(InvalidResponseCode(exchange.status, exchange.body))
  {
    match token
    case None => Call("", None, Failure(TokenMustNotBeNil))
    case Some(request) =>
      var url := ApiURL(c, urls);
      Call(url, Some(request), match exchange
        case TransportFailure(reason) => Failure(TransportFailed(reason))
        case ReadFailure(partial, reason) => Failure(ReadFailed(partial, reason))
        case Received(status, body, decoded) =>
          if status == 200 then
            match decoded
            case Malformed(reason) => Failure(UnmarshalFailed(reason))
            case Parsed(response) =>
              if response.IsError() then Failure(ChargeFailed(response.resultExplanation))
              else Success(response)
          else
            Failure(InvalidResponseCode(status, body)))
  }

  /** A nil request is refused with "token must not be nil" and nothing is
      sent, whatever the transport would have answered. */
  lemma CreateTokenNilRequest(c: Client, urls: Endpoints, exchange: Exchange<CreateTokenResponse>)
    ensures CreateToken(c, urls, None, exchange).sent.None?
    ensures CreateToken(c, urls, None, exchange).answer.response.None?
    ensures Contains(Message(CreateToken(c, urls, None, exchange).answer.error.value), "token must not be nil")
  {
    assert "token must not be nil" <= "token must not be nil"[0..];
  }

  /** How many times `ch` occurs in `s`. */
  function Occurrences(s: string, ch: char): (n: nat)
    ensures n <= |s|
    decreases |s|
  {
    if s == [] then 0 else (if s[0] == ch then 1 else 0) + Occurrences(s[1..], ch)
  }

  /** Removes every '/' from a card expiry ("12/25" becomes "1225"). */
  function StripSlashes(s: string): (r: string)
    ensures '/' !in r
    ensures |r| <= |s|
    ensures '/' !in s ==> r == s
    ensures |r| + Occurrences(s, '/') == |s|
    decreases |s|
  {
    if s == [] then []
    else if s[0] == '/' then StripSlashes(s[1..])
    else [s[0]] + StripSlashes(s[1..])
  }

  /** Stripping works piecewise, so it keeps every other character in
      order. */
  lemma {:induction false} StripSlashesAppend(a: string, b: string)
    ensures StripSlashes(a + b) == StripSlashes(a) + StripSlashes(b)
    decreases |a|
  {
    if a == [] {
      assert a + b == b;
    } else {
      assert (a + b)[0] == a[0];
      assert (a + b)[1..] == a[1..] + b;
      StripSlashesAppend(a[1..], b);
      if a[0] == '/' {
        assert StripSlashes(a) == StripSlashes(a[1..]);
        assert StripSlashes(a + b) == StripSlashes(a[1..] + b);
      } else {
        assert StripSlashes(a) == [a[0]] + StripSlashes(a[1..]);
        assert StripSlashes(a + b) == [a[0]] + StripSlashes(a[1..] + b);
      }
    }
  }

  /** The expiry format the gateway wants. */
  lemma StripSlashesExample()
    ensures StripSlashes("12/25") == "1225"
  {
  }

  /** A direct card charge request. The fixed 3-D Secure block is not
      modelled. */
  datatype ChargeCreditCardRequest = ChargeCreditCardRequest(
    companyToken: string,
    request: string,
    transactionToken: string,
    creditCardNumber: string,
    creditCardExpiry: string,
    creditCardCvv: string,
    cardHolderName: string)

  function ChargeRequest(c: Client, cardHolder: string, cardNumber: string, cvv: string,
                         cardExpiry: string, transToken: string): (q: ChargeCreditCardRequest)
    ensures q.request == "chargeTokenCreditCard"
    ensures q.companyToken == c.token && q.transactionToken == transToken
    ensures q.creditCardNumber == cardNumber && q.creditCardCvv == cvv && q.cardHolderName == cardHolder
    ensures '/' !in q.creditCardExpiry
    ensures q.creditCardExpiry == StripSlashes(cardExpiry)
  {
    ChargeCreditCardRequest(c.token, Codes.OpChargeTokenCreditCard, transToken, cardNumber,
                            StripSlashes(cardExpiry), cvv, cardHolder)
  }

  /** Charges a card against a created token: refused before any request for
      a nil token or an empty transaction token; otherwise one request, with
      success only on HTTP 200 with result "000". */
  function ChargeCreditCard(c: Client, urls: Endpoints, cardHolder: string, cardNumber: string, cvv: string,
                            cardExpiry: string, token: Option<CreateTokenResponse>,
                            exchange: Exchange<Codes.ChargeCreditCardResponse>)
    : (r: Call<ChargeCreditCardRequest, Codes.ChargeCreditCardResponse>)
    ensures token.None? ==> r.sent.None? && r.answer == Failure(NilChargeToken)
    ensures token.Some? && token.value.transToken == "" ==> r.sent.None? && r.answer == Failure(MissingChargeToken)
    ensures r.sent.Some? <==> token.Some? && token.value.transToken != ""
    ensures r.sent.Some? ==> r.url == ApiURL(c, urls) && '/' !in r.sent.value.creditCardExpiry
    ensures r.sent.Some? ==> r.sent.value == ChargeRequest(c, cardHolder, cardNumber, cvv, cardExpiry, token.value.transToken)
    ensures r.answer.response.Some? <==>
              r.sent.Some? && ParsedOk(exchange) && !exchange.decoded.value.IsError()
    ensures r.answer.response.Some? ==> r.answer.response.value == exchange.decoded.value && r.answer.error.None?
    ensures r.answer.response.None? ==> r.answer.error.Some?
    ensures r.sent.Some? && ParsedOk(exchange) && exchange.decoded.value.IsError() ==>
              r.answer.error == Some(ChargeFailed(exchange.decoded.value.explanation))
    ensures r.sent.Some? && exchange.TransportFailure? ==> r.answer == Failure(TransportFailed(exchange.reason))
    ensures r.sent.Some? && exchange.ReadFailure? ==> r.answer == Failure(ReadFailed(exchange.partial, exchange.reason))
    ensures r.sent.Some? && exchange.Received? && exchange.status == 200 && exchange.decoded.Malformed? ==>
              r.answer == Failure(UnmarshalFailed(exchange.decoded.reason))
    ensures r.sent.Some? && exchange.Received? && exchange.status != 200 ==>
              r.answer.error == Some(InvalidResponseCode(exchange.status, exchange.body))
  {
    if token.None? then Call("", None, Failure(NilChargeToken))
    else if token.value.transToken == "" then Call("", None, Failure(MissingChargeToken))
    else
      var request := ChargeRequest(c, cardHolder, cardNumber, cvv, cardExpiry, token.value.transToken);
      Call(ApiURL(c, urls), Some(request), match exchange
        case TransportFailure(reason) => Failure(TransportFailed(reason))
        case ReadFailure(partial, reason) => Failure(ReadFailed(partial, reason))
        case Received(status, body, decoded) =>
          if status == 200 then
            match decoded
            case Malformed(reason) => Failure(UnmarshalFailed(reason))
            case Parsed(response) =>
              if response.IsError() then Failure(ChargeFailed(response.explanation))
              else Success(response)
          else
            Failure(InvalidResponseCode(status, body)))
  }

  /** A polling call: the URL and request posted on every attempt, and the
      loop's result. */
  datatype Polling<Q> = Polling(url: string, request: Q, run: Run<Reply>)

  datatype VerifyTokenRequest = VerifyTokenRequest(request: string, companyToken: string, transactionToken: string)

  /** Verifies a created token. The first 200 that unmarshals is returned as
      is, whatever its result code. A nil token is not modelled. */
  function VerifyToken(c: Client, urls: Endpoints, token: CreateTokenResponse,
                       transport: nat -> Exchange<Reply>): (p: Polling<VerifyTokenRequest>)
    ensures p.url == ApiURL(c, urls)
    ensures p.request == VerifyTokenRequest("verifyToken", c.token, token.transToken)
    ensures p.run.requests <= Budget(c.maxAttempts)
    ensures p.run.answer.response.Some? ==> p.run.answer.error.None?
    ensures p.run.answer.response.Some? ==> 1 <= p.run.requests && ParsedOk(transport(p.run.requests - 1))
    ensures p.run == Poll(Verify, c.maxAttempts, transport)
  {
    Polling(ApiURL(c, urls), VerifyTokenRequest("verifyToken", c.token, token.transToken),
            Poll(Verify, c.maxAttempts, transport))
  }

  datatype CancelTokenRequest = CancelTokenRequest(request: string, companyToken: string, token: string)

  /** Cancels a token: "000" is success; "999", "804" and "950" poll again;
      any other code comes back with a "dpo error". */
  function CancelToken(c: Client, urls: Endpoints, tokenStr: string,
                       transport: nat -> Exchange<Reply>): (p: Polling<CancelTokenRequest>)
    ensures p.url == ApiURL(c, urls)
    ensures p.request == CancelTokenRequest("cancelToken", c.token, tokenStr)
    ensures p.run.requests <= Budget(c.maxAttempts)
    ensures p.run.answer.error.None? ==> p.run.answer.response.Some? && p.run.answer.response.value.result == "000"
    ensures p.run.answer.response.Some? && p.run.answer.error.Some? ==>
              var reply := p.run.answer.response.value;
              reply.result !in {"000", "999", "804", "950"} && p.run.answer.error.value == DpoError(reply.explanation)
    // The other direction: when the loop ended on a parsed 200, "000" gives
    // the reply alone and a terminal code gives the reply with a dpo error.
    ensures !Exhausted(p.run.answer) && 1 <= p.run.requests && ParsedOk(transport(p.run.requests - 1)) ==>
              var reply := transport(p.run.requests - 1).decoded.value;
              && (reply.result == "000" ==> p.run.answer == Success(reply))
              && (reply.result !in {"000", "999", "804", "950"} ==>
                    p.run.answer == Answer(Some(reply), Some(DpoError(reply.explanation))))
    ensures p.run == Poll(Cancel, c.maxAttempts, transport)
  {
    Polling(ApiURL(c, urls), CancelTokenRequest("cancelToken", c.token, tokenStr),
            Poll(Cancel, c.maxAttempts, transport))
  }

  /** A refund request. The amount is the text of a zero `big.Float`. */
  datatype RefundTokenRequest = RefundTokenRequest(
    companyToken: string,
    request: string,
    token: string,
    refundAmount: string,
    refundDetails: string,
    refundRef: string,
    refundApproval: int)

  const ZeroAmountText: string := "0"

  /** Refunds a token: "000" is success; "801", "802", "803", "804", "950" and
      "999" poll again; any other code comes back with a "dpo error". The
      refund amount passed in is not sent: the request always carries a zero
      amount. */
  function RefundToken(c: Client, urls: Endpoints, tokenStr: string, refundAmount: string, refundRef: string,
                       description: string, requiresApproval: bool,
                       transport: nat -> Exchange<Reply>): (p: Polling<RefundTokenRequest>)
    ensures p.url == ApiURL(c, urls)
    ensures p.request.request == "refundToken" && p.request.companyToken == c.token && p.request.token == tokenStr
    ensures p.request.refundRef == refundRef && p.request.refundDetails == description
    ensures p.request.refundApproval == (if requiresApproval then 1 else 0)
    ensures p.request.refundAmount == "0"
    ensures p.run.requests <= Budget(c.maxAttempts)
    ensures p.run.answer.error.None? ==> p.run.answer.response.Some? && p.run.answer.response.value.result == "000"
    ensures p.run.answer.response.Some? && p.run.answer.error.Some? ==>
              var reply := p.run.answer.response.value;
              reply.result !in {"000", "801", "802", "803", "804", "950", "999"}
              && p.run.answer.error.value == DpoError(reply.explanation)
    // The other direction, as for cancel.
    ensures !Exhausted(p.run.answer) && 1 <= p.run.requests && ParsedOk(transport(p.run.requests - 1)) ==>
              var reply := transport(p.run.requests - 1).decoded.value;
              && (reply.result == "000" ==> p.run.answer == Success(reply))
              && (reply.result !in {"000", "801", "802", "803", "804", "950", "999"} ==>
                    p.run.answer == Answer(Some(reply), Some(DpoError(reply.explanation))))
    ensures p.run == Poll(Refund, c.maxAttempts, transport)
  {
    var approval := if requiresApproval then 1 else 0;
    Polling(ApiURL(c, urls),
            RefundTokenRequest(c.token, "refundToken", tokenStr, ZeroAmountText, description, refundRef, approval),
            Poll(Refund, c.maxAttempts, transport))
  }

  /** A client from `NewClient` polls at most five times: when the gateway
      only ever answers with transient results, cancel issues exactly five
      requests and then reports "failed to process request after 5
      attempts". */
  lemma DefaultClientGivesUpAfterFive(companyToken: string, debug: bool, urls: Endpoints, tokenStr: string,
                                      transport: nat -> Exchange<Reply>)
    requires forall j :: 0 <= j < 5 ==> Classify(Cancel, transport(j)).Again?
    ensures CancelToken(NewClient(companyToken, debug), urls, tokenStr, transport).run
            == Run(Failure(AttemptsExhausted(5)), 5)
  {
  }

  /** Transient on the first n - 1 attempts and "000" on the n-th (n within
      the budget): cancel succeeds with exactly n requests. */
  lemma CancelSucceedsOnAttempt(c: Client, urls: Endpoints, tokenStr: string,
                                transport: nat -> Exchange<Reply>, n: nat)
    requires 1 <= n <= c.maxAttempts
    requires forall j :: 0 <= j < n - 1 ==> Classify(Cancel, transport(j)).Again?
    requires ParsedOk(transport(n - 1)) && transport(n - 1).decoded.value.result == "000"
    ensures CancelToken(c, urls, tokenStr, transport).run
            == Run(Success(transport(n - 1).decoded.value), n)
  {
    PollStopsAtFirstFinal(Cancel, c.maxAttempts, transport, n - 1);
  }

  /** A 4xx on the first refund attempt ends the call after one request with
      an "invalid response code" error. */
  lemma RefundStopsOnClientError(c: Client, urls: Endpoints, tokenStr: string, refundAmount: string,
                                 refundRef: string, description: string, requiresApproval: bool,
                                 transport: nat -> Exchange<Reply>)
    requires 1 <= c.maxAttempts
    requires transport(0).Received? && IsClientError(transport(0).status)
    ensures RefundToken(c, urls, tokenStr, refundAmount, refundRef, description, requiresApproval, transport).run
            == Run(Failure(InvalidResponseCode(transport(0).status, transport(0).body)), 1)
  {
  }

  /** The refund amount argument has no effect on what is sent or returned. */
  lemma RefundIgnoresAmount(c: Client, urls: Endpoints, tokenStr: string, a: string, b: string, refundRef: string,
                            description: string, requiresApproval: bool, transport: nat -> Exchange<Reply>)
    ensures RefundToken(c, urls, tokenStr, a, refundRef, description, requiresApproval, transport)
            == RefundToken(c, urls, tokenStr, b, refundRef, description, requiresApproval, transport)
  {
  }

  /** Transient answers on the first k attempts and then a parsed 200 with a
      terminal code (k within the budget): cancel returns that reply together
      with a "dpo error" after exactly k + 1 requests. */
  lemma CancelTerminalCode(c: Client, urls: Endpoints, tokenStr: string,
                           transport: nat -> Exchange<Reply>, k: nat)
    requires k < c.maxAttempts
    requires forall j :: 0 <= j < k ==> Classify(Cancel, transport(j)).Again?
    requires ParsedOk(transport(k))
    requires transport(k).decoded.value.result !in {"000", "999", "804", "950"}
    ensures var reply := transport(k).decoded.value;
            CancelToken(c, urls, tokenStr, transport).run
            == Run(Answer(Some(reply), Some(DpoError(reply.explanation))), k + 1)
  {
    PollStopsAtFirstFinal(Cancel, c.maxAttempts, transport, k);
  }

  /** The same for refund, with its own terminal codes. */
  lemma RefundTerminalCode(c: Client, urls: Endpoints, tokenStr: string, refundAmount: string, refundRef: string,
                           description: string, requiresApproval: bool,
                           transport: nat -> Exchange<Reply>, k: nat)
    requires k < c.maxAttempts
    requires forall j :: 0 <= j < k ==> Classify(Refund, transport(j)).Again?
    requires ParsedOk(transport(k))
    requires transport(k).decoded.value.result !in {"000", "801", "802", "803", "804", "950", "999"}
    ensures var reply := transport(k).decoded.value;
            RefundToken(c, urls, tokenStr, refundAmount, refundRef, description, requiresApproval, transport).run
            == Run(Answer(Some(reply), Some(DpoError(reply.explanation))), k + 1)
  {
    PollStopsAtFirstFinal(Refund, c.maxAttempts, transport, k);
  }
}

=== FILE: codes.dfy ===
/** The gateway's result-code vocabulary for card charges and the response of a
    direct card charge (card.go). */
module Codes {

  // The nine ChargeTokenResponseCode constants.
  const TransactionCharged: string := "000"
  const TransactionAlreadyPaid: string := "200"
  const TokenMissing: string := "801"
  const InvalidToken: string := "802"
  const MissingRequestOrName: string := "803"
  const XmlError: string := "804"
  const DataMismatch: string := "902"
  const MissingMandatoryFields: string := "950"
  const TransactionDenied: string := "999"

  /** The operation name of a direct card charge. */
  const OpChargeTokenCreditCard: string := "chargeTokenCreditCard"

  /** The named codes, in declaration order. */
  const KnownCodes: seq<string> := [
    TransactionCharged, TransactionAlreadyPaid, TokenMissing, InvalidToken,
    MissingRequestOrName, XmlError, DataMismatch, MissingMandatoryFields,
    TransactionDenied
  ]

  const Unknown: string := "Unknown"

  /** Human-readable text of a result code; total over all strings. */
  function Description(code: string): (d: string)
    ensures d == Unknown <==> code !in KnownCodes
  {
    if code == TransactionCharged then "Transaction charged"
    else if code == TransactionAlreadyPaid then "Transaction already paid"
    else if code == TokenMissing then "Request missing company token"
    else if code == InvalidToken then "Wrong CompanyToken"
    else if code == MissingRequestOrName then "No request or error in Request type name"
    else if code == XmlError then "Error in XML"
    else if code == DataMismatch then "Data mismatch in one of the fields – fieldname"
    else if code == MissingMandatoryFields then "Request missing mandatory fields – fieldname"
    else if code == TransactionDenied then "Transaction Declined - Explanation"
    else Unknown
  }

  /** No two of the named codes share a value. */
  lemma KnownCodesDistinct()
    ensures |KnownCodes| == 9
    ensures forall i, j :: 0 <= i < j < |KnownCodes| ==> KnownCodes[i] != KnownCodes[j]
  {
  }

  /** The code a description was produced from: the inverse of
      `Description` on the named codes. */
  function CodeOfDescription(d: string): (code: string)
    ensures code == "" <==> d !in DescriptionTexts
  {
    if d == "Transaction charged" then TransactionCharged
    else if d == "Transaction already paid" then TransactionAlreadyPaid
    else if d == "Request missing company token" then TokenMissing
    else if d == "Wrong CompanyToken" then InvalidToken
    else if d == "No request or error in Request type name" then MissingRequestOrName
    else if d == "Error in XML" then XmlError
    else if d == "Data mismatch in one of the fields – fieldname" then DataMismatch
    else if d == "Request missing mandatory fields – fieldname" then MissingMandatoryFields
    else if d == "Transaction Declined - Explanation" then TransactionDenied
    else ""
  }

  /** The descriptions of the named codes, in declaration order. */
  const DescriptionTexts: seq<string> := [
    "Transaction charged", "Transaction already paid",
    "Request missing company token", "Wrong CompanyToken",
    "No request or error in Request type name", "Error in XML",
    "Data mismatch in one of the fields – fieldname",
    "Request missing mandatory fields – fieldname",
    "Transaction Declined - Explanation"
  ]

  /** Describing a named code and reading the code back gives the code. */
  lemma DescriptionRoundTrip(code: string)
    requires code in KnownCodes
    ensures CodeOfDescription(Description(code)) == code
  {
  }

  /** Different named codes are described differently, so a description
      identifies its code. */
  lemma {:induction false} DescriptionInjective(a: string, b: string)
    requires a in KnownCodes && b in KnownCodes
    requires Description(a) == Description(b)
    ensures a == b
  {
    DescriptionRoundTrip(a);
    DescriptionRoundTrip(b);
  }

  /** The two descriptions callers most often display. */
  lemma DescriptionOfChargedAndDenied()
    ensures Description(TransactionCharged) == "Transaction charged"
    ensures Description(TransactionDenied) == "Transaction Declined - Explanation"
  {
  }

  /** The gateway's answer to a direct card charge. */
  datatype ChargeCreditCardResponse = ChargeCreditCardResponse(
    result: string,
    explanation: string,
    redirectUrl: string,
    backUrl: string,
    declinedUrl: string)
  {
    /** Every result other than a completed charge is an error. */
    predicate IsError() {
      result != TransactionCharged
    }
  }

  /** A charge response is an error exactly when its code is not described as
      a completed charge; in particular an already-paid transaction is an
      error. */
  lemma ChargeIsErrorByDescription(r: ChargeCreditCardResponse)
    ensures r.IsError() <==> Description(r.result) != "Transaction charged"
    ensures r.result == TransactionAlreadyPaid ==> r.IsError()
  {
  }
}

=== FILE: errors.dfy ===
/** The errors the client returns and the text Go's `fmt.Errorf` gives them
    (client.go). */
module Errors {

  datatype ClientError =
    | TokenMustNotBeNil                                 // CreateToken with a nil request
    | NilChargeToken                                    // ChargeCreditCard with a nil token
    | MissingChargeToken                                // ChargeCreditCard with an empty TransToken
    | TransportFailed(reason: string)                   // the HTTP round trip itself failed
    | ReadFailed(partial: string, reason: string)       // reading the response body failed
    | UnmarshalFailed(reason: string)                   // the body was not the expected XML
    | InvalidResponseCode(status: int, body: string)    // an HTTP status that ends the call
    | ChargeFailed(explanation: string)                 // create-token or charge result other than "000"
    | DpoError(explanation: string)                     // terminal cancel or refund result
    | AttemptsExhausted(attempts: int)                  // the retry budget ran out

  /** The decimal digit for 0..9. */
  function DigitChar(d: nat): (c: char)
    requires d < 10
    ensures '0' <= c <= '9'
    ensures c as int - '0' as int == d
  {
    ('0' as int + d) as char
  }

  /** All characters are decimal digits. */
  predicate AllDigits(s: string) {
    forall i :: 0 <= i < |s| ==> '0' <= s[i] <= '9'
  }

  /** The number a string of decimal digits denotes, most significant digit
      first; the inverse of `Digits`. */
  function DigitsValue(s: string): (n: nat)
    requires AllDigits(s)
    decreases |s|
  {
    if s == [] then 0
    else DigitsValue(s[..|s| - 1]) * 10 + (s[|s| - 1] as int - '0' as int)
  }

  /** Decimal text of a natural number, most significant digit first, with
      no leading zero. */
  function Digits(n: nat): (s: string)
    ensures 1 <= |s|
    ensures AllDigits(s)
    ensures DigitsValue(s) == n
    ensures 1 < |s| ==> s[0] != '0'
    decreases n
  {
    if n < 10 then [DigitChar(n)]
    else
      var prefix := Digits(n / 10);
      var s := prefix + [DigitChar(n % 10)];
      assert s[..|s| - 1] == prefix;
      s
  }

  /** Go's `%d` rendering of an int: a minus sign for negatives, then the
      digits of the magnitude. */
  function Decimal(n: int): (s: string)
    ensures 1 <= |s|
    ensures n < 0 <==> s[0] == '-'
    ensures n >= 0 ==> AllDigits(s) && DigitsValue(s) == n
    ensures n < 0 ==> AllDigits(s[1..]) && DigitsValue(s[1..]) == -n
    ensures n >= 0 && 1 < |s| ==> s[0] != '0'
    ensures n < 0 && 2 < |s| ==> s[1] != '0'
  {
    if n < 0 then
      var s := "-" + Digits(-n);
      assert s[1..] == Digits(-n);
      s
    else Digits(n)
  }

  /** The error text the client reports: every kind opens with its own
      fixed wording, except a transport failure, whose reason is passed
      through unchanged. */
  function Message(e: ClientError): (m: string)
    ensures e.TokenMustNotBeNil? ==> m == "token must not be nil"
    ensures e.NilChargeToken? ==> m == "failed to get token: nil value passed as 'token'"
    ensures e.MissingChargeToken? ==> m == "failed to get token"
    ensures e.TransportFailed? ==> m == e.reason
    ensures e.ReadFailed? ==> "failed to read body: " <= m
    ensures e.UnmarshalFailed? ==> "failed unmarshal response: " <= m
    ensures e.InvalidResponseCode? ==> "invalid response code:" <= m
    ensures e.ChargeFailed? ==> "failed to charge card: " <= m
    ensures e.DpoError? ==> "dpo error: " <= m
    ensures e.AttemptsExhausted? ==> "failed to process request after " <= m
  {
    match e
    case TokenMustNotBeNil => "token must not be nil"
    case NilChargeToken => "failed to get token: nil value passed as 'token'"
    case MissingChargeToken => "failed to get token"
    case TransportFailed(reason) => reason
    case ReadFailed(partial, reason) => "failed to read body: " + (partial + (" got: " + reason))
    case UnmarshalFailed(reason) => "failed unmarshal response: " + reason
    case InvalidResponseCode(status, body) => "invalid response code:" + (Decimal(status) + (" body: " + body))
    case ChargeFailed(explanation) => "failed to charge card: " + explanation
    case DpoError(explanation) => "dpo error: " + explanation
    case AttemptsExhausted(n) => "failed to process request after " + (Decimal(n) + " attempts")
  }

  /** Every message carries the context its error was built from: the
      partial body and the reason, the status and the body, the charge
      explanation, the attempt count. */
  lemma MessageCarriesContext(e: ClientError)
    ensures e.ReadFailed? ==> Contains(Message(e), e.partial) && Contains(Message(e), e.reason)
    ensures e.UnmarshalFailed? ==> Contains(Message(e), e.reason)
    ensures e.InvalidResponseCode? ==>
      Contains(Message(e), Decimal(e.status)) && Contains(Message(e), e.body)
    ensures e.ChargeFailed? ==> Contains(Message(e), e.explanation)
    ensures e.AttemptsExhausted? ==> Contains(Message(e), Decimal(e.attempts))
  {
    match e
    case ReadFailed(partial, reason) =>
      ContainsStart("failed to read body: ", partial, " got: " + reason);
      ContainsLast("failed to read body: ", partial, " got: ", reason);
    case UnmarshalFailed(reason) =>
      ContainsEnd("failed unmarshal response: ", reason);
    case InvalidResponseCode(status, body) =>
      ContainsStart("invalid response code:", Decimal(status), " body: " + body);
      ContainsLast("invalid response code:", Decimal(status), " body: ", body);
    case ChargeFailed(explanation) =>
      ContainsEnd("failed to charge card: ", explanation);
    case AttemptsExhausted(n) =>
      ContainsStart("failed to process request after ", Decimal(n), " attempts");
    case _ =>
  }

  /** A gateway error carries the gateway's own explanation. */
  lemma GatewayMessageCarriesExplanation(explanation: string)
    ensures Contains(Message(DpoError(explanation)), explanation)
  {
    ContainsEnd("dpo error: ", explanation);
  }

  /** `m` splits, in order, into exactly `a`, `b` and `c`. */
  predicate SplitsInto3(m: string, a: string, b: string, c: string) {
    |a| + |b| + |c| == |m| && m[..|a|] == a && m[|a|..|a| + |b|] == b
    && m[|a| + |b|..] == c
  }

  /** `m` splits, in order, into exactly `a`, `b`, `c` and `d`. */
  predicate SplitsInto4(m: string, a: string, b: string, c: string, d: string) {
    |a| + |b| + |c| + |d| == |m| && m[..|a|] == a && m[|a|..|a| + |b|] == b
    && m[|a| + |b|..|a| + |b| + |c|] == c && m[|a| + |b| + |c|..] == d
  }

  lemma Joined3Splits(a: string, b: string, c: string)
    ensures SplitsInto3(a + (b + c), a, b, c)
  {
  }

  lemma Joined4Splits(a: string, b: string, c: string, d: string)
    ensures SplitsInto4(a + (b + (c + d)), a, b, c, d)
  {
  }

  /** The exhaustion text reads back as its fixed opening, the %d of the
      attempt count and the fixed " attempts" closing, in that order. */
  lemma ExhaustedMessageReadsBack(n: int)
    ensures SplitsInto3(Message(AttemptsExhausted(n)),
              "failed to process request after ", Decimal(n), " attempts")
  {
    Joined3Splits("failed to process request after ", Decimal(n), " attempts");
  }

  /** The read error's text reads back as its fixed opening, the partial
      body, the " got: " separator and the reason, in that order. */
  lemma ReadFailedMessageReadsBack(partial: string, reason: string)
    ensures SplitsInto4(Message(ReadFailed(partial, reason)),
              "failed to read body: ", partial, " got: ", reason)
  {
    Joined4Splits("failed to read body: ", partial, " got: ", reason);
  }

  /** The status error's text reads back as its fixed opening, the %d of
      the status, the " body: " separator and the body, in that order. */
  lemma InvalidResponseCodeMessageReadsBack(status: int, body: string)
    ensures SplitsInto4(Message(InvalidResponseCode(status, body)),
              "invalid response code:", Decimal(status), " body: ", body)
  {
    Joined4Splits("invalid response code:", Decimal(status), " body: ", body);
  }

  /** The tail of a joined text occurs in it. */
  lemma ContainsEnd(a: string, b: string)
    ensures Contains(a + b, b)
  {
    assert (a + b)[|a|..] == b;
  }

  /** Whatever follows the head of a joined text occurs in it. */
  lemma ContainsStart(a: string, b: string, c: string)
    ensures Contains(a + (b + c), b)
  {
    assert (a + (b + c))[|a|..] == b + c;
  }

  /** The last of four joined pieces occurs in the whole. */
  lemma ContainsLast(a: string, b: string, c: string, d: string)
    ensures Contains(a + (b + (c + d)), d)
  {
    assert (a + (b + (c + d)))[|a| + |b| + |c|..] == d;
  }

  /** `needle` occurs somewhere in `text`. */
  predicate Contains(text: string, needle: string) {
    exists i :: 0 <= i <= |text| && needle <= text[i..]
  }

  /** The text a caller sees when a default client's budget of five attempts
      runs out. */
  lemma ExhaustedMessageOfDefaultBudget()
    ensures Message(AttemptsExhausted(5)) == "failed to process request after 5 attempts"
  {
    assert Decimal(5) == "5";
  }

  /** The text a caller sees for a 404 response with body "x". */
  lemma InvalidResponseCodeMessage()
    ensures Message(InvalidResponseCode(404, "x")) == "invalid response code:404 body: x"
  {
    assert Digits(40) == Digits(4) + "0";
    assert Decimal(404) == "404";
  }
}

=== FILE: exchanges.dfy ===
/** One HTTP round trip as the client sees it, and how the polling operations
    (verify, cancel, refund) classify it (client.go). */
module Exchanges {
  import opened Optional
  import opened Errors
  import Codes

  /** What `xml.Unmarshal` made of a response body. */
  datatype Decoded<R> = Malformed(reason: string) | Parsed(value: R)

  /** The outcome of one request: the transport failed, reading the body
      failed, or a status and body arrived. `decoded` is what unmarshalling
      the body gives; the client looks at it only for HTTP 200. */
  datatype Exchange<R> =
    | TransportFailure(reason: string)
    | ReadFailure(partial: string, reason: string)
    | Received(status: int, body: string, decoded: Decoded<R>)

  /** Go's `(response, error)` result pair; either half may be nil. */
  datatype Answer<R> = Answer(response: Option<R>, error: Option<ClientError>)

  function Success<R>(r: R): Answer<R> { Answer(Some(r), None) }
  function Failure<R>(e: ClientError): Answer<R> { Answer(None, Some(e)) }

  /** What an operation returned and how many HTTP requests it issued. */
  datatype Run<R> = Run(answer: Answer<R>, requests: nat)

  /** A 200 response whose body unmarshalled. */
  predicate ParsedOk<R>(e: Exchange<R>) {
    e.Received? && e.status == 200 && e.decoded.Parsed?
  }

  /** An HTTP status in [400, 500). */
  predicate IsClientError(status: int) {
    400 <= status < 500
  }

  /** The body shared by the verify, cancel and refund responses. */
  datatype Reply = Reply(result: string, explanation: string)

  datatype PollOp = Verify | Cancel | Refund

  /** Result codes on which an operation polls again: the gateway has not yet
      reached a final state. Verify never looks at the code. */
  function TransientCodes(op: PollOp): (codes: set<string>)
    ensures Codes.TransactionCharged !in codes
    ensures forall c :: c in codes ==> c in Codes.KnownCodes
  {
    match op
    case Verify => {}
    case Cancel => {Codes.TransactionDenied, Codes.XmlError, Codes.MissingMandatoryFields}
    case Refund => {Codes.TokenMissing, Codes.InvalidToken, Codes.MissingRequestOrName,
                    Codes.XmlError, Codes.MissingMandatoryFields, Codes.TransactionDenied}
  }

  /** Every code on which cancel retries, refund retries on too. */
  lemma CancelTransientWithinRefund()
    ensures TransientCodes(Cancel) <= TransientCodes(Refund)
    ensures TransientCodes(Refund) - TransientCodes(Cancel)
            == {Codes.TokenMissing, Codes.InvalidToken, Codes.MissingRequestOrName}
  {
  }

  /** One iteration's decision: leave the loop with an answer, or go round
      again. */
  datatype Verdict = Finish(answer: Answer<Reply>) | Again

  /** The decision on a 200 response whose body unmarshalled, written as the
      client's per-operation `switch` on the result code. */
  function ClassifyReply(op: PollOp, reply: Reply): (v: Verdict)
    ensures v.Again? <==> reply.result in TransientCodes(op)
    ensures v.Finish? && v.answer.error.None? <==> op == Verify || reply.result == "000"
    ensures v.Finish? ==> v.answer.response == Some(reply)
    ensures v.Finish? && v.answer.error.Some? ==> v.answer.error.value == DpoError(reply.explanation)
  {
    match op
    case Verify => Finish(Success(reply))
    case Cancel =>
      if reply.result == "000" then Finish(Success(reply))
      else if reply.result in {"999", "804", "950"} then Again
      else Finish(Answer(Some(reply), Some(DpoError(reply.explanation))))
    case Refund =>
      if reply.result == "000" then Finish(Success(reply))
      else if reply.result in {"801", "802", "803", "804", "950", "999"} then Again
      else Finish(Answer(Some(reply), Some(DpoError(reply.explanation))))
  }

  /** The decision on one exchange of a polling loop. */
  function Classify(op: PollOp, e: Exchange<Reply>): (v: Verdict)
    // The loop goes round again exactly on a status that is neither 200 nor
    // 4xx, or on a transient code in a 200 response.
    ensures v.Again? <==>
      || (e.Received? && e.status != 200 && !IsClientError(e.status))
      || (ParsedOk(e) && e.decoded.value.result in TransientCodes(op))
    // Transport, read and unmarshal failures and 4xx statuses end the call
    // with that error and no response.
    ensures e.TransportFailure? ==> v == Finish(Failure(TransportFailed(e.reason)))
    ensures e.ReadFailure? ==> v == Finish(Failure(ReadFailed(e.partial, e.reason)))
    ensures e.Received? && e.status == 200 && e.decoded.Malformed? ==>
              v == Finish(Failure(UnmarshalFailed(e.decoded.reason)))
    ensures e.Received? && IsClientError(e.status) ==>
              v == Finish(Failure(InvalidResponseCode(e.status, e.body)))
    // A 200 whose body unmarshalled is decided by the operation's code switch.
    ensures ParsedOk(e) ==> v == ClassifyReply(op, e.decoded.value)
    // A response comes back only from a 200 whose body unmarshalled.
    ensures v.Finish? && v.answer.response.Some? ==> ParsedOk(e) && v.answer.response.value == e.decoded.value
    // Nothing but success is returned without an error.
    ensures v.Finish? && v.answer.error.None? ==> ParsedOk(e) && (op == Verify || e.decoded.value.result == "000")
    // A single iteration never reports an exhausted budget.
    ensures v.Finish? ==> v.answer.error.Some? || v.answer.response.Some?
    ensures v.Finish? && v.answer.error.Some? ==> !v.answer.error.value.AttemptsExhausted?
  {
    match e
    case TransportFailure(reason) => Finish(Failure(TransportFailed(reason)))
    case ReadFailure(partial, reason) => Finish(Failure(ReadFailed(partial, reason)))
    case Received(status, body, decoded) =>
      if status == 200 then
        match decoded
        case Malformed(reason) => Finish(Failure(UnmarshalFailed(reason)))
        case Parsed(reply) => ClassifyReply(op, reply)
      else if IsClientError(status) then
        Finish(Failure(InvalidResponseCode(status, body)))
      else
        Again
  }

  /** Verify stops on the first 200 whatever its code: its polling only
      rides out non-200, non-4xx statuses. */
  lemma VerifyIgnoresResultCode(e: Exchange<Reply>)
    requires ParsedOk(e)
    ensures Classify(Verify, e) == Finish(Success(e.decoded.value))
  {
  }
}

=== FILE: optional.dfy ===
/** The optional value used wherever the client passes or returns a Go pointer
    that may be nil. */
module Optional {

  datatype Option<+T> = None | Some(value: T)
}

=== FILE: retry.dfy ===
/** The bounded polling loop shared by VerifyToken, CancelToken and
    RefundToken (client.go). The transport is a script: `transport(i)` is what
    the i-th request (counting from 0) gets back. */
module Retry {
  import opened Optional
  import opened Errors
  import opened Exchanges

  /** The most requests a loop with this budget may issue; a budget of zero
      or less issues none. */
  function Budget(maxAttempts: int): (n: nat)
  {
    if maxAttempts < 0 then 0 else maxAttempts
  }

  /** An answer that says the budget ran out. */
  predicate Exhausted<R>(a: Answer<R>) {
    a.error.Some? && a.error.value.AttemptsExhausted?
  }

  /** The loop from iteration `i` on, where `decide(j)` is the decision on
      the j-th exchange: stop on the first final decision, otherwise poll
      again until `maxAttempts` requests have been issued. */
  function Loop(decide: nat -> Verdict, maxAttempts: int, i: nat): (r: Run<Reply>)
    requires forall j :: decide(j).Finish? ==> !Exhausted(decide(j).answer)
    ensures i <= r.requests
    ensures r.requests <= if i < maxAttempts then maxAttempts else i
    ensures Exhausted(r.answer) <==> r.answer == Failure(AttemptsExhausted(maxAttempts))
    ensures Exhausted(r.answer) ==> r.requests == (if i < maxAttempts then maxAttempts else i)
    ensures Exhausted(r.answer) ==> forall j :: i <= j < r.requests ==> decide(j).Again?
    ensures !Exhausted(r.answer) ==> i < r.requests && decide(r.requests - 1) == Finish(r.answer)
    decreases maxAttempts - i
  {
    if i >= maxAttempts then
      Run(Failure(AttemptsExhausted(maxAttempts)), i)
    else
      match decide(i)
      case Finish(answer) => Run(answer, i + 1)
      case Again => Loop(decide, maxAttempts, i + 1)
  }

  /** The decisions an operation takes on a scripted transport. */
  function Decisions(op: PollOp, transport: nat -> Exchange<Reply>): (decide: nat -> Verdict)
    ensures forall j :: decide(j) == Classify(op, transport(j))
    ensures forall j :: decide(j).Finish? ==> !Exhausted(decide(j).answer)
  {
    (j: nat) => Classify(op, transport(j))
  }

  /** The whole loop of an operation, starting at the first attempt. */
  function Poll(op: PollOp, maxAttempts: int, transport: nat -> Exchange<Reply>): (r: Run<Reply>)
    ensures r.requests <= Budget(maxAttempts)
    ensures Exhausted(r.answer) <==> r.answer == Failure(AttemptsExhausted(maxAttempts))
    ensures Exhausted(r.answer) ==> r.requests == Budget(maxAttempts)
    ensures !Exhausted(r.answer) ==> 1 <= r.requests && Classify(op, transport(r.requests - 1)) == Finish(r.answer)
  {
    Loop(Decisions(op, transport), maxAttempts, 0)
  }

  /** When every decision from `i` on is to poll again, the loop issues
      requests up to the budget and reports it exhausted. */
  lemma LoopExhausts(decide: nat -> Verdict, maxAttempts: int, i: nat)
    requires forall j :: decide(j).Finish? ==> !Exhausted(decide(j).answer)
    requires forall j :: i <= j < maxAttempts ==> decide(j).Again?
    ensures Loop(decide, maxAttempts, i)
            == Run(Failure(AttemptsExhausted(maxAttempts)), if i < maxAttempts then maxAttempts else i)
  {
  }

  /** When decisions i..k-1 are to poll again and decision k is final, the
      loop issues exactly k + 1 requests and returns decision k's answer. */
  lemma {:induction false} LoopStopsAtFirstFinal(decide: nat -> Verdict, maxAttempts: int, i: nat, k: nat)
    requires forall j :: decide(j).Finish? ==> !Exhausted(decide(j).answer)
    requires i <= k < maxAttempts
    requires forall j :: i <= j < k ==> decide(j).Again?
    requires decide(k).Finish?
    ensures Loop(decide, maxAttempts, i) == Run(decide(k).answer, k + 1)
    decreases k - i
  {
    if i < k {
      LoopStopsAtFirstFinal(decide, maxAttempts, i + 1, k);
    }
  }

  /** Conversely, whatever the loop returns, every decision before its last
      request was to poll again: the loop never skips past a final one. */
  lemma {:induction false} LoopOnlyRetriesTransient(decide: nat -> Verdict, maxAttempts: int, i: nat, j: nat)
    requires forall j :: decide(j).Finish? ==> !Exhausted(decide(j).answer)
    requires i <= j && j + 1 < Loop(decide, maxAttempts, i).requests
    ensures decide(j).Again?
    decreases maxAttempts - i
  {
    if decide(i).Again? && i < j {
      LoopOnlyRetriesTransient(decide, maxAttempts, i + 1, j);
    }
  }

  /** All transient: exactly `maxAttempts` requests, never more, then the
      "after N attempts" error. */
  lemma PollExhausts(op: PollOp, maxAttempts: int, transport: nat -> Exchange<Reply>)
    requires forall j :: 0 <= j < maxAttempts ==> Classify(op, transport(j)).Again?
    ensures Poll(op, maxAttempts, transport) == Run(Failure(AttemptsExhausted(maxAttempts)), Budget(maxAttempts))
  {
  }

  /** Transient on the first k attempts and final on attempt k (k below the
      budget): exactly k + 1 requests and that attempt's answer. */
  lemma PollStopsAtFirstFinal(op: PollOp, maxAttempts: int, transport: nat -> Exchange<Reply>, k: nat)
    requires k < maxAttempts
    requires forall j :: 0 <= j < k ==> Classify(op, transport(j)).Again?
    requires Classify(op, transport(k)).Finish?
    ensures Poll(op, maxAttempts, transport) == Run(Classify(op, transport(k)).answer, k + 1)
  {
    LoopStopsAtFirstFinal(Decisions(op, transport), maxAttempts, 0, k);
  }

  /** Every attempt before the last one an operation issued was transient. */
  lemma PollOnlyRetriesTransient(op: PollOp, maxAttempts: int, transport: nat -> Exchange<Reply>, j: nat)
    requires j + 1 < Poll(op, maxAttempts, transport).requests
    ensures Classify(op, transport(j)).Again?
  {
    LoopOnlyRetriesTransient(Decisions(op, transport), maxAttempts, 0, j);
  }

  /** An error-kind exit (transport, read, unmarshal or 4xx) on the first
      attempt ends the loop after that single request. */
  lemma FirstAttemptFatal(op: PollOp, maxAttempts: int, transport: nat -> Exchange<Reply>)
    requires 0 < maxAttempts
    requires || transport(0).TransportFailure?
             || transport(0).ReadFailure?
             || (transport(0).Received? && IsClientError(transport(0).status))
             || (transport(0).Received? && transport(0).status == 200 && transport(0).decoded.Malformed?)
    ensures Poll(op, maxAttempts, transport).requests == 1
    ensures Poll(op, maxAttempts, transport).answer.response.None?
  {
  }
}

=== FILE: tokens.dfy ===
/** The create-token request builder and the create-token response (token.go). */
module Tokens {
  import opened Codes

  /** One line item of a payment. The date is the already formatted
      "YYYY/MM/DD HH:MM" text. */
  datatype Service = Service(serviceType: string, description: string, date: string)

  /** A Go slice of services, which may be nil. */
  datatype ServiceList = Nil | Slice(items: seq<Service>) {
    /** The services held; a nil slice holds none. */
    function Elements(): seq<Service> {
      match this
      case Nil => []
      case Slice(xs) => xs
    }
  }

  datatype Transaction = Transaction(
    paymentAmount: string,
    paymentCurrency: string,
    companyRef: string,
    redirectURL: string,
    backURL: string,
    companyRefUnique: string,
    ptl: string)

  datatype CreateTokenRequest = CreateTokenRequest(
    companyToken: string,
    request: string,
    transaction: Transaction,
    services: ServiceList)

  const OpCreateToken: string := "createToken"
  /** Default payment time limit, in hours. */
  const DefaultPtl: string := "5"

  /** The zero value of a request, as a Go literal `&CreateTokenRequest{}`
      gives it: every text empty and the service list nil. */
  const ZeroRequest: CreateTokenRequest :=
    CreateTokenRequest("", "", Transaction("", "", "", "", "", "", ""), Nil)

  /** A request is ready to send once it names the create-token operation and
      its service list exists. */
  predicate WellFormed(r: CreateTokenRequest) {
    r.request == OpCreateToken && r.services.Slice?
  }

  /** A new create-token request: the given credential, currency and amount
      text, the fixed operation name and time limit, every other field empty
      and an empty, non-nil service list. */
  function NewCreateTokenRequest(companyToken: string, paymentCurrency: string, amountText: string)
    : (r: CreateTokenRequest)
    ensures WellFormed(r)
    ensures r.companyToken == companyToken
    ensures r.request == "createToken" && r.transaction.ptl == "5"
    ensures r.transaction.paymentCurrency == paymentCurrency
    ensures r.transaction.paymentAmount == amountText
    ensures r.transaction.companyRef == "" && r.transaction.redirectURL == ""
    ensures r.transaction.backURL == "" && r.transaction.companyRefUnique == ""
    ensures r.services == Slice([])
  {
    CreateTokenRequest(
      companyToken,
      OpCreateToken,
      Transaction(amountText, paymentCurrency, "", "", "", "", DefaultPtl),
      Slice([]))
  }

  /** Appends one service; a nil or empty list is replaced by a fresh list
      holding only the new service. */
  function AddService(r: CreateTokenRequest, typeCode: string, description: string, date: string)
    : (r': CreateTokenRequest)
    ensures r'.services.Slice?
    ensures |r'.services.items| == |r.services.Elements()| + 1
    ensures r'.services.items[..|r.services.Elements()|] == r.services.Elements()
    ensures r'.services.items[|r.services.Elements()|] == Service(typeCode, description, date)
    ensures r'.companyToken == r.companyToken && r'.request == r.request
    ensures r'.transaction == r.transaction
  {
    var service := Service(typeCode, description, date);
    if r.services.Nil? || |r.services.items| < 1 then
      r.(services := Slice([service]))
    else
      r.(services := Slice(r.services.items + [service]))
  }

  /** Adding a service keeps a request well formed, and makes even the zero
      value's nil list a one-element list. */
  lemma AddServiceToEmpty(r: CreateTokenRequest, typeCode: string, description: string, date: string)
    requires r.services.Elements() == []
    ensures AddService(r, typeCode, description, date).services
            == Slice([Service(typeCode, description, date)])
    ensures WellFormed(r) ==> WellFormed(AddService(r, typeCode, description, date))
  {
  }

  /** Adds the services in order, one `AddService` call each. */
  function AddServices(r: CreateTokenRequest, services: seq<Service>): (r': CreateTokenRequest)
    decreases |services|
  {
    if services == [] then r
    else
      var s := services[0];
      AddServices(AddService(r, s.serviceType, s.description, s.date), services[1..])
  }

  /** A sequence of `AddService` calls appends the services in call order
      after the ones already there, touching nothing else. */
  lemma {:induction false} AddServicesAppends(r: CreateTokenRequest, services: seq<Service>)
    ensures AddServices(r, services).services.Elements() == r.services.Elements() + services
    ensures services != [] ==> AddServices(r, services).services.Slice?
    ensures AddServices(r, services).transaction == r.transaction
    ensures AddServices(r, services).companyToken == r.companyToken
    ensures AddServices(r, services).request == r.request
    decreases |services|
  {
    if services != [] {
      var s := services[0];
      var r1 := AddService(r, s.serviceType, s.description, s.date);
      assert r1.services.Elements() == r.services.Elements() + [s];
      AddServicesAppends(r1, services[1..]);
      assert [s] + services[1..] == services;
      assert r.services.Elements() + [s] + services[1..] == r.services.Elements() + services;
    }
  }

  /** Three calls on the zero request leave exactly those three services, in
      call order. */
  lemma ThreeServicesInOrder(a: Service, b: Service, c: Service)
    ensures AddService(AddService(AddService(ZeroRequest, a.serviceType, a.description, a.date),
              b.serviceType, b.description, b.date), c.serviceType, c.description, c.date).services
            == Slice([a, b, c])
  {
  }

  /** Sets the page the gateway returns to when the payer cancels. */
  function SetBackURL(r: CreateTokenRequest, backURL: string): (r': CreateTokenRequest)
    ensures r'.transaction.backURL == backURL
    ensures r'.companyToken == r.companyToken && r'.request == r.request
    ensures r'.services == r.services
    ensures r'.transaction.paymentAmount == r.transaction.paymentAmount
    ensures r'.transaction.paymentCurrency == r.transaction.paymentCurrency
    ensures r'.transaction.companyRef == r.transaction.companyRef
    ensures r'.transaction.redirectURL == r.transaction.redirectURL
    ensures r'.transaction.companyRefUnique == r.transaction.companyRefUnique
    ensures r'.transaction.ptl == r.transaction.ptl
  {
    r.(transaction := r.transaction.(backURL := backURL))
  }

  /** Sets the page the gateway sends the payer to after paying. */
  function SetRedirectURL(r: CreateTokenRequest, redirectURL: string): (r': CreateTokenRequest)
    ensures r'.transaction.redirectURL == redirectURL
    ensures r'.companyToken == r.companyToken && r'.request == r.request
    ensures r'.services == r.services
    ensures r'.transaction.paymentAmount == r.transaction.paymentAmount
    ensures r'.transaction.paymentCurrency == r.transaction.paymentCurrency
    ensures r'.transaction.companyRef == r.transaction.companyRef
    ensures r'.transaction.backURL == r.transaction.backURL
    ensures r'.transaction.companyRefUnique == r.transaction.companyRefUnique
    ensures r'.transaction.ptl == r.transaction.ptl
  {
    r.(transaction := r.transaction.(redirectURL := redirectURL))
  }

  /** The URL setters are independent of each other and of `AddService`, the
      last write of each wins, and none disturbs well-formedness. */
  lemma SettersCommute(r: CreateTokenRequest, back: string, back': string, redirect: string,
                       typeCode: string, description: string, date: string)
    ensures SetBackURL(SetRedirectURL(r, redirect), back) == SetRedirectURL(SetBackURL(r, back), redirect)
    ensures SetBackURL(SetBackURL(r, back'), back) == SetBackURL(r, back)
    ensures SetRedirectURL(SetRedirectURL(r, back'), redirect) == SetRedirectURL(r, redirect)
    ensures SetBackURL(AddService(r, typeCode, description, date), back)
            == AddService(SetBackURL(r, back), typeCode, description, date)
    ensures WellFormed(r) ==> WellFormed(SetBackURL(r, back)) && WellFormed(SetRedirectURL(r, redirect))
  {
  }

  datatype Allocation = Allocation(allocationId: string, allocationCode: string)

  /** The gateway's answer to a create-token request. */
  datatype CreateTokenResponse = CreateTokenResponse(
    result: string,
    resultExplanation: string,
    transToken: string,
    transRef: string,
    allocation: Allocation)
  {
    /** Every result other than "000" is an error. */
    predicate IsError() {
      result != TransactionCharged
    }
  }

  /** A create-token response is an error exactly when its code is not "000";
      every other named code, already-paid included, is an error. */
  lemma CreateTokenIsErrorExactlyUnlessCharged(r: CreateTokenResponse)
    ensures r.IsError() <==> r.result != "000"
    ensures r.result in KnownCodes[1..] ==> r.IsError()
  {
  }
}
